=== FILE: README.md ===
# Telegram price bot — verified model of its command and watchlist core

The bot takes the messages a Telegram user sends and replies to them.

- `/add <url>` asks it to watch a Flipkart or Reliance Digital product page.
- `/list`, `/flipkart` and `/reliance` ask for the name and current price of every watched product, or of one retailer's.
- `/ignore#<id>` stops watching a product.
- Anything else gets a welcome text.

Each user's watchlist is one document in a store, keyed by the chat id. It holds the user's first name and an ordered list of products `{product_id, website, base_url, product_url}`. Product ids are random numbers in [1001, 9999] and are redrawn until they differ from the user's other ids.

The model has seven modules, one per concern of `app/main.py`:

- `Text`: the Python string and `re` operations the code relies on. These are anchored match, substring search, `split` with and without a limit, `int` on digits and `str` of an integer.
- `Registry`: the retailer enumeration and the `BASE_URL`, `PRICE` and `PRODUCT_NAME` tables.
- `Commands`: message dispatch, classification of an `/add` link, and the path that gets stored.
- `Watchlist`: the product and user documents, the id redraw loop, and a `Store` class holding `map<int, UserDoc>` with `AddDetails` and `DeleteDetails`.
- `Listing`: product selection, entry formatting, and the loop that composes a listing.
- `Bot`: the per-message handler that ties these together and returns the texts sent back.
- `Wrappers`: the `Option` type.

The environment is supplied as parameters:

- The results of `random.randint(1001, 9999)` come in as a sequence `draws`.
- The page fetch plus the CSS query come in as `scrape: (url, selector) -> Option<text>`.
- Outgoing Telegram messages are the sequence of texts a handler returns.

Points where the code behaves in a way a reader might not expect, and which the model keeps:

- A product whose name or price cannot be found makes `select_one(...)` return `None`. The following `.get_text()` then raises, so nothing is sent for the whole listing, not even the entries already composed. `SnapshotsIff`, `Listed` and `ListingReplies` state this.
- `/list` for a user with no products sends the bare header. The test `allProducts != None` on a `find` cursor never fails, so the "Product list is empty" branch (app/main.py:221-222) is never taken for `/list`. For `/flipkart` and `/reliance` it is taken, because an empty aggregation cursor is not `alive` (app/main.py:238-240, 268-269).
- Removal uses `$pull`, which removes every entry with the id. Under the invariant that ids are distinct this is exactly one (`WithoutRemovesOne`).
- The redraw loop `while prodId in prodIds` (app/main.py:109-110) has no bound: it draws until an id is free.

The handler is specified at the level of commands. `Dispatch` reads a message text as a `Command`. `StoreAfter` gives the store after that command, and `RepliesTo` the texts sent back. `HandleMessage` updates a `Store` in place and is proved to follow both. Properties of whole message exchanges are lemmas over `StoreAfter` and `RepliesTo`, joined to message texts by the round-trip lemmas `IgnoreHintRoundTrip` and `AddRoundTrip`.

## Model

| member | source | states |
|---|---|---|
| `Text.Find` | app/main.py:312 | The result is the first position of the separator, or none when the text does not contain it. |
| `Text.SplitAtMost` | app/main.py:337-338 | A split limited to `n` cuts yields between 1 and `n + 1` pieces. |
| `Text.JoinSplitAtMost` | app/main.py:337-338 | Re-joining the pieces of a limited split on `/` gives back the original link. |
| `Text.SplitPiecesClean` | app/main.py:322 | After an unlimited split on a separator, no piece contains it. |
| `Text.SplitCons` | app/main.py:312 | Splitting `a + sep + b`, where `a` has no separator, gives `a` followed by the pieces of `b`. |
| `Text.ParseNat` | app/main.py:312 | Parsing succeeds exactly on a non-empty string of decimal digits. |
| `Text.Decimal` | app/main.py:210 | The decimal text of a number is non-empty, made only of digits, and has no leading zero. |
| `Text.IntText` | app/main.py:210 | `str` of a non-negative id is its decimal text; a negative one starts with `-`. |
| `Text.ParseDecimal` | app/main.py:312 | Parsing the decimal text of a number gives back the number. |
| `Registry.WebsiteName` | app/main.py:333-334 | The stored website string is `flipkart` exactly for Flipkart and `reliance` exactly for Reliance. |
| `Registry.BaseUrl` | app/main.py:46-49 | Each base URL starts with `https://`, ends in `/`, and is the host with those nine characters added. |
| `Registry.BaseUrlNamesRetailer` | app/main.py:46-49 | A base URL has the retailer's website name right after `https://www.`. |
| `Registry.RelianceBaseUrl` | app/main.py:47 | The Reliance base URL is `https://www.reliancedigital.in/`. |
| `Registry.FlipkartBaseUrl` | app/main.py:48 | The Flipkart base URL is `https://www.flipkart.com/`. |
| `Registry.BaseUrlInjective` | app/main.py:46-49 | Two retailers have the same base URL exactly when they are the same retailer. |
| `Registry.BaseUrlHasNoSpace` | app/main.py:46-49 | A base URL followed by a space-free path contains no space. |
| `Commands.Dispatch` | app/main.py:303-324 | `ListAll` exactly for `/list`, and a retailer listing exactly for `/flipkart` and `/reliance`, named after the retailer. An ignore command, well formed or not, exactly when the text starts with `/ignore`; an add command exactly when it starts with `/add`. The welcome command exactly for every other text. |
| `Commands.PrefixesExclusive` | app/main.py:309-320 | No text starts with both `/ignore` and `/add`, so the order of the two tests does not matter. |
| `Commands.IgnoreArgument` | app/main.py:309-316 | After `/ignore`, the message is an ignore command with an id exactly when it has a second `#`-piece made of digits, and the id is their value. `/ignore` without a `#` is malformed. |
| `Commands.AddArgument` | app/main.py:320-324 | After `/add`, the message is an add command exactly when it has a second space-separated piece. That piece is the link, and it contains no space. `/add` without a space is malformed. |
| `Commands.Classify` | app/main.py:327-344 | No `https://` prefix means no reply. Neither `flipkart` nor `reliance` as a substring means "Please check the url". Otherwise the retailer's name occurs in the URL, `flipkart` wins when both occur, and the path is what `re.split('/', url, 3)[-1]` keeps. |
| `Commands.StoredPathOfHttps` | app/main.py:337-338 | `StoredPath`, the `re.split('/', url, 3)[-1]` of an `https://` link, is the text after the first `/` that follows the host. If the host has no `/` after it, it is all of the text after `https://`. |
| `Commands.StoredPathAfterBase` | app/main.py:337-338 | A link made of a canonical base URL followed by `p` stores exactly `p`. |
| `Commands.ClassifyRoundTrip` | app/main.py:327-338 | Classifying `BASE_URL[r] + p` yields retailer `r` and path `p`, so `base_url + product_url` rebuilds the submitted link. For Flipkart this holds for every `p`; for Reliance it holds when `p` does not mention `flipkart`. |
| `Commands.ClassifyIgnoresHost` | app/main.py:329-338 | A Reliance link whose path mentions `flipkart` is stored as a Flipkart product. The URL fetched later then differs from the submitted one, because the host is never checked. |
| `Commands.BaseUrlsDiffer` | app/main.py:46-49 | The same path under the two base URLs gives two different links. |
| `Commands.AddLinkRoundTrip` | app/main.py:320-338 | The message `/add <base URL><path>` with a space-free path carries that link, which is attributed to the base URL's retailer and stores the path. For Reliance this needs a path without `flipkart`. |
| `Commands.IgnoreHintRoundTrip` | app/main.py:309-312 | The hint `IgnoreHint(id)`, the `/ignore#<id>` printed under a product, dispatches to removing exactly that id when sent back. |
| `Commands.AddRoundTrip` | app/main.py:320-322 | `/add <url>` with a space-free link dispatches to adding that link. |
| `Watchlist.Ids` | app/main.py:99-103 | The gathered id list has one id per product, in list order. |
| `Watchlist.NewProduct` | app/main.py:86-89 | The new entry's base URL is the Flipkart one exactly when the website is `flipkart`, and the retailer's own base URL in every case. |
| `Watchlist.AssignedId` | app/main.py:97-127 | A new user gets the first draw. An existing user gets an id exactly when some draw is free of its ids, and the id is then one of the draws and not among its ids. |
| `Watchlist.Added` | app/main.py:112-141 | The store after `addDetails` gains the user's key. Every other user is unchanged, and an existing user keeps its name. The user's products are the old ones, none for a new user, followed by the new entry. |
| `Watchlist.Removed` | app/main.py:159-163 | The store after `deleteDetails` has the same keys. Every other user is unchanged, and the user's name is kept while the products are those left by `$pull`. |
| `Watchlist.FreshDraw` | app/main.py:105-110 | The redraw loop stops at the first draw not among the taken ids; every earlier draw is taken. |
| `Watchlist.GenerateProductId` | app/main.py:99-110 | The loop returns an id exactly when some draw is free. That id is not among the user's ids and is the first free draw. |
| `Watchlist.Without` | app/main.py:159-163 | `$pull` never lengthens the list. The length drops exactly when the id was present, and nothing changes when it was absent. |
| `Watchlist.WithoutMembers` | app/main.py:159-163 | `$pull` keeps every entry whose id differs, and only entries of the list, none with the id. |
| `Watchlist.WithoutAppend` | app/main.py:159-163 | Removal preserves the order of the entries it keeps. |
| `Watchlist.WithoutRemovesOne` | app/main.py:159-166 | With pairwise-distinct ids, removing a present id deletes exactly one entry. |
| `Watchlist.WithoutWellFormed` | app/main.py:159-163 | Removal keeps a list's ids distinct and in range, and keeps each base URL consistent with its website. |
| `Watchlist.AppendFreshWellFormed` | app/main.py:109-124 | Appending an entry with a fresh in-range id keeps the list well formed. |
| `Watchlist.RemoveUndoesAdd` | app/main.py:159-163 | Removing the id just appended restores the user's list as it was. |
| `Watchlist.RemovedUndoesAdded` | app/main.py:112-163 | For an existing user, pulling the fresh id just pushed restores the whole store. |
| `Watchlist.AddedWellFormed` | app/main.py:95-141 | Every assigned id is in [1001, 9999], for a new user too. For an existing user the id is not among that user's ids, and the store stays well formed. |
| `Watchlist.RemovedWellFormed` | app/main.py:157-163 | Removal keeps the whole store well formed. |
| `Watchlist.Store.AddDetails` | app/main.py:84-141 | An unknown user is created with the given name and a one-entry list holding the first draw. An existing user keeps its name and gets exactly one entry appended, with the first free draw. Earlier entries and all other users are unchanged, and the store invariant is kept. |
| `Watchlist.Store.DeleteDetails` | app/main.py:157-166 | Reports removal exactly when the user exists and has the id. The new store is the old one with those entries pulled. When nothing was removed the store is unchanged, and an unknown user is not created. |
| `Listing.Selected` | app/main.py:192-195 | `/list` covers every product of the user, in order, and a retailer listing never covers more. |
| `Listing.SelectedMembers` | app/main.py:225-233 | A retailer listing contains only that retailer's products, and every one of them. |
| `Listing.SelectedAppend` | app/main.py:225-233 | Selection keeps list order: it distributes over concatenation. |
| `Listing.ReadProduct` | app/main.py:196-208 | The page is fetched from `base_url + product_url` and read with the website's `PRODUCT_NAME` and `PRICE` selectors (`NameSelector`, `PriceSelector`, app/main.py:52-62). A result exists exactly when both are found, and it is the name and price found. |
| `Listing.FetchesSubmittedLink` | app/main.py:86-89 | A product stored from a canonical link is fetched later from that very link: `base_url + product_url` rebuilds it. |
| `Listing.EntryEndsWithHint` | app/main.py:210 | Every entry, built by `Entry` from the pieces of the f-string, ends with `/ignore#<id>` and a blank line, and that hint dispatches back to removing the product. |
| `Listing.Snapshots` | app/main.py:195-208 | Reading the first `n` products, when it succeeds, gives one name and price per product. |
| `Listing.SnapshotsIff` | app/main.py:195-208 | The first `n` products are read exactly when each of them can be read, and then the `k`-th reading is the `k`-th product's page. One failure aborts the whole reply. |
| `Listing.BodyStep` | app/main.py:195-210 | One more product read appends its entry, numbered one past the earlier ones, after them. |
| `Listing.BodyExtends` | app/main.py:241-257 | Entries are only ever appended: the entries of the first `m` products start the text of all of them. |
| `Listing.Listed` | app/main.py:188-210 | The listing message is `Header` followed by the numbered entries of what was read, with no message exactly when some product cannot be read. With no products it is the bare header. |
| `Listing.ComposeListing` | app/main.py:195-210 | The loop that appends one entry per product returns exactly `Listed`. When a read fails it stops with no text. |
| `Listing.ListingReplies` | app/main.py:186-269 | A retailer with no matching product gets "Product list is empty". `/list` with no product gets the bare header. Otherwise there is no message exactly when some product cannot be read, and else one message: `Header` (app/main.py:188) followed by the numbered entries of what was read. |
| `Bot.SendDetails` | app/main.py:186-269 | Sends what `ListingReplies` prescribes for the user's products. |
| `Bot.StoreAfter` | app/main.py:303-353 | The store changes only for an ignore command or an add command whose link was attributed to a retailer. |
| `Bot.RepliesTo` | app/main.py:303-353 | At most two texts are sent back for one message. What each path sends is stated from the message text by `ListingPathReplies`, `ErrorPathReplies`, `AddForNewUser`, `IgnoreIdempotent` and `AddThenIgnoreRestores`. |
| `Bot.ListingPathReplies` | app/main.py:303-308 | From the message text: `/list` gets `ListingReplies` of all the sender's products, and `/flipkart` and `/reliance` get `ListingReplies` of that retailer's products only. None of them changes the store. |
| `Bot.ErrorPathReplies` | app/main.py:303-353 | From the message text: a link without `https://` gets no reply, and a link naming neither `flipkart` nor `reliance` gets "Please check the url". `/ignore` without a `#` or without a digit second `#`-piece gets the deletion error, and `/add` without a second space-separated piece gets the link-format error. Any other text gets the welcome text. None of these changes the store. For an `/ignore` with an id, "Product is already not monitored." is sent exactly when the store is unchanged. |
| `Bot.StoreAfterWellFormed` | app/main.py:303-353 | Every command keeps the store well formed when the draws are in [1001, 9999]. |
| `Bot.StoreAfterTouchesOnlySender` | app/main.py:303-353 | A command changes only the sender's document; every other user is kept as is. |
| `Bot.HandleMessage` | app/main.py:288-353 | The store is updated in place to `StoreAfter` of the dispatched command and the replies are `RepliesTo` of it. The store invariant is kept. |
| `Bot.AddForNewUser` | app/main.py:320-341 | A first-time user who sends an accepted link gets a document with their name and one product carrying the first draw, and the confirmation then the welcome text. |
| `Bot.IgnoreIdempotent` | app/main.py:309-319 | A second removal of the same id changes nothing and answers "Product is already not monitored." |
| `Bot.AddThenIgnoreRestores` | app/main.py:303-344 | For a user with a document, adding an accepted link and then removing the id it got restores the store; the replies are the confirmation, the welcome text, then "Product is ignored from monitoring." |

## Left out

- Flask routing, the `POST`/`GET` split and the returned status dictionary are left out: they are web plumbing.
- The Telegram send calls and the `.env` token handling are left out: they are network I/O. Outgoing messages are modelled as the returned texts, in send order.
- The MongoDB client is replaced by an in-memory map. Cursor and aggregation semantics are not modelled; only their observable effect on the reply is.
- BeautifulSoup parsing and the CSS selector language are not modelled. Fetch plus `select_one(...).get_text()` is the supplied `scrape` function, and the selector strings are opaque constants.
- `random.randint` is modelled as a supplied sequence of results, each assumed in [1001, 9999].
- `Watchlist.Store.AddDetails`: when every supplied draw clashes with an existing id, the model reports no id and leaves the store unchanged. The code would go on drawing. Termination of that redraw loop is not modelled.
- `Commands.Dispatch`: Python's `int()` also accepts surrounding whitespace, a sign, digit underscores and non-ASCII decimal digits such as full-width or Arabic-Indic ones. The model accepts plain decimal digits only, so such ids read as malformed here.
- The payload `try/except` around the incoming JSON is left out. A message with a missing sender name, id or text causes no action in the code, and the handler here always receives all three.
- The unused `chat_error` text is not modelled.
- Messages are handled one at a time. In the code, the `find_one`/`find` then `update_one`/`insert_one` sequence is not atomic across concurrent webhook requests. Two first `/add`s of a user can both reach `insert_one`, and two `/add`s can interleave with the id check. `Store.Valid`, `StoreAfterWellFormed` and the distinct-id property hold only under sequential handling.
- The `print` logging of received messages and payload errors (app/main.py:299-302) is left out. It has no effect on the store or the replies.
- `Bot.RepliesTo`: `int()` is unbounded, but an id of 2^63 or more cannot be encoded as a BSON integer, so `update_one` raises and the code sends nothing. On Python versions that cap integer parsing at 4300 digits, a longer id makes `int()` raise instead, and the bare `except` (app/main.py:313-316) sends "*Product could not be deleted!*". The model treats every such id like any other absent id and answers "Product is already not monitored."
- The display helpers `Header`, `Body`, `Entry`, `EntryPieces`, `IgnoreHint`, `StoredPath`, `FetchUrl`, `Extract` and the selector tables carry no contract of their own. Their content is stated by the rows that use them: `Listed` and `ListingReplies` for `Header` and `Body`, `BodyStep` and `BodyExtends` for `Body`, `EntryEndsWithHint` for `Entry` and `EntryPieces`, `IgnoreHintRoundTrip` for `IgnoreHint`, `StoredPathOfHttps` for `StoredPath`, and `ReadProduct` for the rest.

=== FILE: bot.dfy ===
/**
 * The webhook handler: one incoming message from one user is dispatched, the
 * watchlist is updated, and the texts to send back to that user are returned
 * in the order they are sent.
 */
module Bot {

  import opened Wrappers
  import opened Text
  import opened Registry
  import opened Commands
  import opened Watchlist
  import opened Listing

  const WelcomeMessage: string :=
    "\n*Welcome to Price scraper service bot*\n"
    + "_We currently only fetch product prices from Flipkart and Reliance Digital._\n\n"
    + "Choose the commands:\n\n"
    + "*/add <product-url>* -- To add the product for monitoring the price\n"
    + "*/list* -- To list all your products\n"
    + "*/reliance* -- To list all your products added from reliance\n"
    + "*/flipkart* -- To list all your products added from flipkart\n"

  const LinkErrorMessage: string :=
    "\n**An error occured while getting the link of the product.**\n"
    + "The error can usually occur due to the following reasons:\n\n"
    + "1) _The link was not provided in a proper format_\n"
    + "2) _The link provided was not of Flipkart or Reliance Digital_\n"

  const AddedMessage: string := "Product details added successfully \U{2713}"
  const IgnoredMessage: string := "Product is ignored from monitoring."
  const NotMonitoredMessage: string := "Product is already not monitored."
  const DeleteErrorMessage: string := "*Product could not be deleted!*\n_Check the command properly_"
  const CheckUrlMessage: string := "Please check the url"

  /** `sendDetails`: reads the store and composes the listing reply; the store is not changed. */
  method SendDetails(store: Store, f: Filter, chatId: int, scrape: Scraper) returns (out: seq<string>)
    ensures out == ListingReplies(f, Owned(store.users, chatId), scrape)
  {
    var products := Selected(Owned(store.users, chatId), f);
    if f.FromRetailer? && products == [] {
      return [EmptyListMessage];
    }
    var text := ComposeListing(f, products, scrape);
    if text.None? {
      return [];
    }
    return [text.value];
  }

  /**
   * The store after one command from user `chatId`: `/ignore…` with an id
   * pulls it, `/add…` with a link attributed to a retailer appends it under a
   * fresh id; every other command leaves the store as it was. `draws` are the
   * results `random.randint` would give.
   */
  function StoreAfter(users: map<int, UserDoc>, chatId: int, userName: string, c: Command, draws: seq<int>)
    : (after: map<int, UserDoc>)
    requires |draws| > 0
    ensures after != users ==> c.Ignore? || (c.Add? && Classify(c.url).Classified?)
  {
    match c
    case Ignore(id) => Removed(users, chatId, id)
    case Add(url) =>
      var d, id := Classify(url), AssignedId(users, chatId, draws);
      if d.Classified? && id.Some? then Added(users, chatId, userName, d.retailer, d.path, id.value)
      else users
    case _ => users
  }

  /**
   * The texts sent back for one command, in order: the listing for `/list`,
   * `/flipkart`, `/reliance`; whether the id was there for `/ignore…`; the
   * confirmation and the welcome text for a stored link; the error texts for
   * malformed commands and unknown retailers; nothing for a non-`https` link;
   * the welcome text for anything else. `scrape` is the page fetch and
   * selector query.
   */
  function RepliesTo(users: map<int, UserDoc>, chatId: int, c: Command, draws: seq<int>, scrape: Scraper)
    : (out: seq<string>)
    requires |draws| > 0
    ensures |out| <= 2
  {
    match c
    case ListAll => ListingReplies(AllProducts, Owned(users, chatId), scrape)
    case ListRetailer(r) => ListingReplies(FromRetailer(r), Owned(users, chatId), scrape)
    case Ignore(id) =>
      [if chatId in users && id in Ids(users[chatId].products) then IgnoredMessage else NotMonitoredMessage]
    case IgnoreMalformed => [DeleteErrorMessage]
    case Add(url) =>
      (match Classify(url)
       case NotHttps => []
       case UnknownRetailer => [CheckUrlMessage]
       case Classified(_, _) =>
         if AssignedId(users, chatId, draws).Some? then [AddedMessage, WelcomeMessage] else [])
    case AddMalformed => [LinkErrorMessage]
    case Welcome => [WelcomeMessage]
  }

  /** Every command keeps the store well formed. */
  lemma StoreAfterWellFormed(users: map<int, UserDoc>, chatId: int, userName: string, c: Command, draws: seq<int>)
    requires WellFormedStore(users)
    requires |draws| > 0 && forall k :: 0 <= k < |draws| ==> InIdRange(draws[k])
    ensures WellFormedStore(StoreAfter(users, chatId, userName, c, draws))
  {
    match c
    case Ignore(id) =>
      RemovedWellFormed(users, chatId, id);
    case Add(url) =>
      if Classify(url).Classified? && AssignedId(users, chatId, draws).Some? {
        var d := Classify(url);
        AddedWellFormed(users, chatId, userName, d.retailer, d.path, draws);
      }
    case _ =>
  }

  /** A command only ever changes the sender's document; every other user's is left as it was. */
  lemma StoreAfterTouchesOnlySender(users: map<int, UserDoc>, chatId: int, userName: string, c: Command,
                                    draws: seq<int>, other: int)
    requires |draws| > 0 && other != chatId
    ensures var after := StoreAfter(users, chatId, userName, c, draws);
      (other in after <==> other in users) && (other in users ==> after[other] == users[other])
  {
  }

  /**
   * The webhook handler for one message: the message is read as a command,
   * the store is updated in place to `StoreAfter` and the texts `RepliesTo`
   * prescribes are returned.
   */
  method HandleMessage(store: Store, chatId: int, userName: string, msg: string, draws: seq<int>, scrape: Scraper)
    returns (out: seq<string>)
    requires store.Valid()
    requires |draws| > 0 && forall k :: 0 <= k < |draws| ==> InIdRange(draws[k])
    modifies store
    ensures store.Valid()
    ensures store.users == StoreAfter(old(store.users), chatId, userName, Dispatch(msg), draws)
    ensures out == RepliesTo(old(store.users), chatId, Dispatch(msg), draws, scrape)
  {
    match Dispatch(msg)
    case ListAll =>
      out := SendDetails(store, AllProducts, chatId, scrape);
    case ListRetailer(r) =>
      out := SendDetails(store, FromRetailer(r), chatId, scrape);
    case Ignore(productId) =>
      var removed := store.DeleteDetails(chatId, productId);
      out := if removed then [IgnoredMessage] else [NotMonitoredMessage];
    case IgnoreMalformed =>
      out := [DeleteErrorMessage];
    case Add(url) =>
      match Classify(url) {
        case NotHttps =>
          out := [];
        case UnknownRetailer =>
          out := [CheckUrlMessage];
        case Classified(website, productUrl) =>
          var id := store.AddDetails(chatId, userName, website, productUrl, draws);
          out := if id.Some? then [AddedMessage, WelcomeMessage] else [];
      }
    case AddMalformed =>
      out := [LinkErrorMessage];
    case Welcome =>
      out := [WelcomeMessage];
  }

  /**
   * A first-time user who sends an accepted link gets a document under their
   * name whose one product carries the first draw, and the confirmation.
   */
  lemma AddForNewUser(users: map<int, UserDoc>, chatId: int, userName: string, url: string,
                      draws: seq<int>, scrape: Scraper)
    requires chatId !in users && |draws| > 0 && Classify(url).Classified?
    ensures var d := Classify(url);
      StoreAfter(users, chatId, userName, Add(url), draws)
        == users[chatId := UserDoc(userName, [NewProduct(draws[0], d.retailer, d.path)])]
    ensures RepliesTo(users, chatId, Add(url), draws, scrape) == [AddedMessage, WelcomeMessage]
  {
  }

  /**
   * Removing an id twice: the second time the store does not change and the
   * reply says the product is already not monitored.
   */
  lemma IgnoreIdempotent(users: map<int, UserDoc>, chatId: int, userName: string, id: nat,
                         draws: seq<int>, scrape: Scraper)
    requires |draws| > 0
    ensures var once := StoreAfter(users, chatId, userName, Ignore(id), draws);
      && StoreAfter(once, chatId, userName, Ignore(id), draws) == once
      && RepliesTo(once, chatId, Ignore(id), draws, scrape) == [NotMonitoredMessage]
  {
    if chatId in users {
      var kept := Without(users[chatId].products, id);
      assert id !in Ids(kept) by {
        WithoutMembers(users[chatId].products, id);
        assert forall k :: 0 <= k < |kept| ==> Ids(kept)[k] != id;
      }
    }
  }

  /**
   * For a user who already has products, adding an accepted link and then
   * removing the id it was given puts the store back to what it was.
   */
  lemma AddThenIgnoreRestores(users: map<int, UserDoc>, chatId: int, userName: string, url: string,
                              draws: seq<int>, scrape: Scraper)
    requires chatId in users && |draws| > 0
    requires Classify(url).Classified?
    requires AssignedId(users, chatId, draws).Some? && AssignedId(users, chatId, draws).value >= 0
    ensures var ignore := Ignore(AssignedId(users, chatId, draws).value);
      var after := StoreAfter(users, chatId, userName, Add(url), draws);
      && RepliesTo(users, chatId, Add(url), draws, scrape) == [AddedMessage, WelcomeMessage]
      && StoreAfter(after, chatId, userName, ignore, draws) == users
      && RepliesTo(after, chatId, ignore, draws, scrape) == [IgnoredMessage]
  {
    var id := AssignedId(users, chatId, draws).value;
    var d := Classify(url);
    var after := Added(users, chatId, userName, d.retailer, d.path, id);
    assert StoreAfter(users, chatId, userName, Add(url), draws) == after;
    RemovedUndoesAdded(users, chatId, userName, d.retailer, d.path, id);
    assert id in Ids(after[chatId].products) by {
      assert Ids(after[chatId].products)[|users[chatId].products|] == id;
    }
  }

  /**
   * The error and fallback paths of the handler, from the message text: a
   * link without `https://` gets no reply, a link naming neither retailer
   * "Please check the url", `/ignore` without a readable id and `/add`
   * without a link their error texts, any other text the welcome text; none
   * of them touches the store. An `/ignore` with an id answers "already not
   * monitored" exactly when nothing was removed.
   */
  lemma ErrorPathReplies(users: map<int, UserDoc>, chatId: int, userName: string, msg: string,
                         draws: seq<int>, scrape: Scraper)
    requires |draws| > 0
    ensures var c := Dispatch(msg);
      var out, after := RepliesTo(users, chatId, c, draws, scrape), StoreAfter(users, chatId, userName, c, draws);
      && (c.Add? && !StartsWith(c.url, "https://") ==> out == [] && after == users)
      && (c.Add? && StartsWith(c.url, "https://") && !Contains(c.url, "flipkart") && !Contains(c.url, "reliance") ==>
            out == [CheckUrlMessage] && after == users)
      && (StartsWith(msg, "/ignore") && !(|Split(msg, '#')| >= 2 && ParseNat(Split(msg, '#')[1]).Some?) ==>
            out == [DeleteErrorMessage] && after == users)
      && (StartsWith(msg, "/ignore") && '#' !in msg ==> out == [DeleteErrorMessage] && after == users)
      && (StartsWith(msg, "/add") && |Split(msg, ' ')| < 2 ==> out == [LinkErrorMessage] && after == users)
      && (StartsWith(msg, "/add") && ' ' !in msg ==> out == [LinkErrorMessage] && after == users)
      && (msg !in {"/list", "/flipkart", "/reliance"} && !StartsWith(msg, "/ignore") && !StartsWith(msg, "/add") ==>
            out == [WelcomeMessage] && after == users)
      && (c.Ignore? ==> (out == [NotMonitoredMessage] <==> after == users))
  {
    IgnoreArgument(msg);
    AddArgument(msg);
    var c := Dispatch(msg);
    if c.Ignore? && chatId in users {
      var doc := users[chatId];
      if c.productId in Ids(doc.products) {
        assert |Without(doc.products, c.productId)| < |doc.products|;
        assert StoreAfter(users, chatId, userName, c, draws)[chatId] != doc;
      } else {
        assert doc.(products := doc.products) == doc;
      }
    }
  }

  /**
   * The listing paths of the handler, from the message text: `/list` gets the
   * listing of all the sender's products, `/flipkart` and `/reliance` the
   * listing of that retailer's products only, and none of them touches the
   * store.
   */
  lemma ListingPathReplies(users: map<int, UserDoc>, chatId: int, userName: string, msg: string,
                           draws: seq<int>, scrape: Scraper)
    requires |draws| > 0
    ensures var c := Dispatch(msg);
      var out, after := RepliesTo(users, chatId, c, draws, scrape), StoreAfter(users, chatId, userName, c, draws);
      && (msg == "/list" ==> out == ListingReplies(AllProducts, Owned(users, chatId), scrape) && after == users)
      && (msg == "/flipkart" ==> out == ListingReplies(FromRetailer(Flipkart), Owned(users, chatId), scrape) && after == users)
      && (msg == "/reliance" ==> out == ListingReplies(FromRetailer(Reliance), Owned(users, chatId), scrape) && after == users)
  {
  }
}

=== FILE: commands.dfy ===
/**
 * How the bot reads an incoming message text: which command it is, and for
 * `/add`, how the submitted link is checked, attributed to a retailer and cut
 * down to the path that is stored.
 */
module Commands {

  import opened Wrappers
  import opened Text
  import opened Registry

  datatype Command =
    | ListAll                            // `/list`
    | ListRetailer(retailer: Retailer)   // `/flipkart`, `/reliance`
    | Ignore(productId: nat)             // `/ignore…#<digits>…`
    | IgnoreMalformed                    // `/ignore…` without a readable id
    | Add(url: string)                   // `/add…<space><url>…`
    | AddMalformed                       // `/add…` without a second space-separated token
    | Welcome                            // anything else

  /** The message-dispatch chain of the webhook handler, in its order of tests. */
  function Dispatch(msg: string): (c: Command)
    ensures c == ListAll <==> msg == "/list"
    ensures c.ListRetailer? <==> msg == "/flipkart" || msg == "/reliance"
    ensures c.ListRetailer? ==> msg == "/" + WebsiteName(c.retailer)
    ensures (c.Ignore? || c.IgnoreMalformed?) <==> StartsWith(msg, "/ignore")
    ensures (c.Add? || c.AddMalformed?) <==> StartsWith(msg, "/add")
    ensures c.Welcome? <==>
      msg !in {"/list", "/flipkart", "/reliance"} && !StartsWith(msg, "/ignore") && !StartsWith(msg, "/add")
  {
    if msg in {"/list", "/flipkart", "/reliance"} then
      ListingNotPrefixed(msg);
      if msg == "/list" then ListAll
      else if msg == "/flipkart" then ListRetailer(Flipkart)
      else ListRetailer(Reliance)
    else if StartsWith(msg, "/ignore") then
      PrefixesExclusive(msg);
      var parts := Split(msg, '#');
      if |parts| < 2 then IgnoreMalformed
      else
        match ParseNat(parts[1])
        case None => IgnoreMalformed
        case Some(id) => Ignore(id)
    else if StartsWith(msg, "/add") then
      var parts := Split(msg, ' ');
      if |parts| < 2 then AddMalformed else Add(parts[1])
    else Welcome
  }

  /** The three listing commands start with neither `/ignore` nor `/add`. */
  lemma ListingNotPrefixed(msg: string)
    requires msg in {"/list", "/flipkart", "/reliance"}
    ensures !StartsWith(msg, "/ignore") && !StartsWith(msg, "/add")
  {
    assert msg[1] != 'i' && msg[1] != 'a';
  }

  /** No message starts with both `/ignore` and `/add`. */
  lemma PrefixesExclusive(msg: string)
    requires StartsWith(msg, "/ignore")
    ensures !StartsWith(msg, "/add")
  {
    assert msg[1] == 'i';
  }

  /**
   * `/ignore…` reads the id after the first `#`: it is an id exactly when the
   * second `#`-piece is a string of digits, and then it is their value; with
   * no `#` the command is malformed.
   */
  lemma IgnoreArgument(msg: string)
    ensures StartsWith(msg, "/ignore") ==>
      (Dispatch(msg).Ignore? <==> |Split(msg, '#')| >= 2 && ParseNat(Split(msg, '#')[1]).Some?)
    ensures StartsWith(msg, "/ignore") && '#' !in msg ==> Dispatch(msg) == IgnoreMalformed
    ensures Dispatch(msg).Ignore? ==>
      |Split(msg, '#')| >= 2 && ParseNat(Split(msg, '#')[1]) == Some(Dispatch(msg).productId)
  {
    if StartsWith(msg, "/ignore") {
      PrefixesExclusive(msg);
    }
    if StartsWith(msg, "/ignore") && '#' !in msg {
      SplitAtMostNoSeparator(msg, '#', |msg|);
    }
  }

  /**
   * `/add…` takes the second space-separated token: there is a link exactly
   * when there are at least two tokens, with no space the command is
   * malformed, and the link taken never contains a space.
   */
  lemma AddArgument(msg: string)
    ensures StartsWith(msg, "/add") ==> (Dispatch(msg).Add? <==> |Split(msg, ' ')| >= 2)
    ensures StartsWith(msg, "/add") && ' ' !in msg ==> Dispatch(msg) == AddMalformed
    ensures Dispatch(msg).Add? ==>
      |Split(msg, ' ')| >= 2 && Dispatch(msg).url == Split(msg, ' ')[1] && ' ' !in Dispatch(msg).url
  {
    if StartsWith(msg, "/add") && ' ' !in msg {
      SplitAtMostNoSeparator(msg, ' ', |msg|);
    }
    SplitPiecesClean(msg, ' ', |msg|);
  }

  datatype Classification =
    | NotHttps                                        // no reply, nothing stored
    | UnknownRetailer                                 // "Please check the url"
    | Classified(retailer: Retailer, path: string)    // stored as website and product_url

  /** `re.split('/', url, 3)[-1]`: what follows the third `/`, or the last piece when there are fewer. */
  function StoredPath(url: string): string {
    var parts := SplitAtMost(url, '/', 3);
    parts[|parts| - 1]
  }

  /**
   * The `/add` link check: an `https://` prefix is required, then a substring
   * test in which `flipkart` is tried before `reliance`.
   */
  function Classify(url: string): (d: Classification)
    ensures d == NotHttps <==> !StartsWith(url, "https://")
    ensures d == UnknownRetailer <==>
      StartsWith(url, "https://") && !Contains(url, "flipkart") && !Contains(url, "reliance")
    ensures d.Classified? ==> Contains(url, WebsiteName(d.retailer)) && d.path == StoredPath(url)
    ensures d.Classified? && Contains(url, "flipkart") ==> d.retailer == Flipkart
  {
    if !StartsWith(url, "https://") then NotHttps
    else if Contains(url, "flipkart") then Classified(Flipkart, StoredPath(url))
    else if Contains(url, "reliance") then Classified(Reliance, StoredPath(url))
    else UnknownRetailer
  }

  /** The path stored for a link under a canonical base URL is exactly what follows the base. */
  lemma StoredPathAfterBase(r: Retailer, p: string)
    ensures StoredPath(BaseUrl(r) + p) == p
  {
    var h := Host(r);
    var t3 := h + ['/'] + p;
    assert BaseUrl(r) + p == "https:" + ['/'] + ("" + ['/'] + t3) by {
      assert BaseUrl(r) + p == "https://" + t3;
      assert "https:" + ['/'] + ("" + ['/'] + t3) == ("https:" + ['/'] + ['/']) + t3;
      assert "https:" + ['/'] + ['/'] == "https://";
    }
    SplitAtMostCons("https:", '/', "" + ['/'] + (h + ['/'] + p), 2);
    SplitAtMostCons("", '/', h + ['/'] + p, 1);
    SplitAtMostCons(h, '/', p, 0);
  }

  /**
   * For any `https://` link: the stored path is what follows the first `/`
   * after the host, or, when the host is not followed by a `/`, everything
   * after `https://`.
   */
  lemma StoredPathOfHttps(url: string)
    requires StartsWith(url, "https://")
    ensures var rest := url[8..];
      StoredPath(url) == match Find(rest, '/') case None => rest case Some(j) => rest[j + 1..]
  {
    var rest := url[8..];
    assert url == "https:" + ['/'] + ("" + ['/'] + rest);
    SplitAtMostCons("https:", '/', "" + ['/'] + rest, 2);
    SplitAtMostCons("", '/', rest, 1);
    assert "" + ['/'] + rest == [] + ['/'] + rest;
  }

  lemma BaseNamesItsRetailer(r: Retailer, p: string)
    ensures Contains(BaseUrl(r) + p, WebsiteName(r))
  {
    var b, u := BaseUrl(r), BaseUrl(r) + p;
    BaseUrlNamesRetailer(r);
    assert u[12..][..8] == b[12..20];
    ContainsAt(u, WebsiteName(r), 12);
  }

  lemma BaseIsHttps(r: Retailer, p: string)
    ensures StartsWith(BaseUrl(r) + p, "https://")
  {
    assert (BaseUrl(r) + p)[..8] == BaseUrl(r)[..8];
  }

  /** No `f` occurs in the Reliance base URL, so it cannot contribute to a `flipkart` match. */
  lemma RelianceBaseHidesNoFlipkart(p: string)
    ensures Contains(BaseUrl(Reliance) + p, "flipkart") <==> Contains(p, "flipkart")
  {
    assert 'f' !in BaseUrl(Reliance) by {
      assert 'f' !in "https://" && 'f' !in Host(Reliance);
    }
    ContainsAfterPrefix(BaseUrl(Reliance), p, "flipkart");
  }

  /**
   * Round trip of `/add`: a link made of a retailer's base URL and a path is
   * attributed to that retailer and stores that path, so the fetch URL
   * `base_url + product_url` rebuilt later is the link that was submitted.
   * For Reliance this needs the path not to mention `flipkart`, which wins.
   */
  lemma {:induction false} ClassifyRoundTrip(r: Retailer, p: string)
    requires r == Flipkart || !Contains(p, "flipkart")
    ensures Classify(BaseUrl(r) + p) == Classified(r, p)
    ensures BaseUrl(Classify(BaseUrl(r) + p).retailer) + Classify(BaseUrl(r) + p).path == BaseUrl(r) + p
  {
    BaseIsHttps(r, p);
    StoredPathAfterBase(r, p);
    BaseNamesItsRetailer(r, p);
    if r == Reliance {
      RelianceBaseHidesNoFlipkart(p);
    }
  }

  /**
   * The host is never checked against the retailer: a Reliance link whose path
   * mentions `flipkart` is stored as a Flipkart product, and the URL fetched
   * later is no longer the submitted one.
   */
  lemma {:induction false} ClassifyIgnoresHost(p: string)
    requires Contains(p, "flipkart")
    ensures Classify(BaseUrl(Reliance) + p) == Classified(Flipkart, p)
    ensures BaseUrl(Classify(BaseUrl(Reliance) + p).retailer) + p != BaseUrl(Reliance) + p
  {
    BaseIsHttps(Reliance, p);
    RelianceBaseHidesNoFlipkart(p);
    StoredPathAfterBase(Reliance, p);
    BaseUrlsDiffer(p);
  }

  /** A path appended to the two base URLs gives two different links. */
  lemma BaseUrlsDiffer(p: string)
    ensures BaseUrl(Flipkart) + p != BaseUrl(Reliance) + p
  {
    BaseUrlNamesRetailer(Flipkart);
    BaseUrlNamesRetailer(Reliance);
    assert (BaseUrl(Flipkart) + p)[12] != (BaseUrl(Reliance) + p)[12];
  }

  /** The removal hint printed under every listed product. */
  function IgnoreHint(id: int): string {
    "/ignore#" + IntText(id)
  }

  /** Sending back the hint of a listed product asks to remove exactly that product. */
  lemma {:induction false} IgnoreHintRoundTrip(id: nat)
    ensures Dispatch(IgnoreHint(id)) == Ignore(id)
  {
    var msg := IgnoreHint(id);
    var digits := Decimal(id);
    assert msg == "/ignore" + ['#'] + digits;
    assert msg[..7] == "/ignore";
    assert '#' !in digits by {
      assert forall k :: 0 <= k < |digits| ==> IsDigit(digits[k]);
    }
    SplitCons("/ignore", '#', digits);
    SplitAtMostNoSeparator(digits, '#', |digits|);
    ParseDecimal(id);
  }

  /** `/add <url>` with a single space and a space-free link asks to add that link. */
  lemma {:induction false} AddRoundTrip(url: string)
    requires ' ' !in url
    ensures Dispatch("/add " + url) == Add(url)
  {
    var msg := "/add " + url;
    assert msg == "/add" + [' '] + url;
    assert msg[..4] == "/add";
    assert !StartsWith(msg, "/ignore") by {
      if |msg| >= 7 { assert msg[1] != "/ignore"[1]; }
    }
    SplitCons("/add", ' ', url);
    SplitAtMostNoSeparator(url, ' ', |url|);
  }

  /**
   * The whole `/add` path for a canonical link: the message `/add <base><path>`
   * with a space-free path is read as that link, which is attributed to the
   * retailer of the base URL and stores the path.
   */
  lemma AddLinkRoundTrip(r: Retailer, p: string)
    requires ' ' !in p
    requires r == Flipkart || !Contains(p, "flipkart")
    ensures Dispatch("/add " + (BaseUrl(r) + p)) == Add(BaseUrl(r) + p)
    ensures Classify(BaseUrl(r) + p) == Classified(r, p)
  {
    BaseUrlHasNoSpace(r, p);
    AddRoundTrip(BaseUrl(r) + p);
    ClassifyRoundTrip(r, p);
  }
}

=== FILE: listing.dfy ===
/**
 * The reply to `/list`, `/flipkart` and `/reliance` (`sendDetails`): the
 * user's products, all of them or those of one retailer, in list order; each
 * page fetched from `base_url + product_url`, its name and price read with the
 * retailer's selectors, and one numbered entry per product appended to a
 * header. The page fetch and the selector query are one supplied function.
 */
module Listing {

  import opened Wrappers
  import opened Text
  import opened Registry
  import opened Commands
  import opened Watchlist

  datatype Filter = AllProducts | FromRetailer(retailer: Retailer)

  predicate Matches(p: Product, f: Filter) {
    f == AllProducts || p.website == f.retailer
  }

  /** The products a listing covers: every product for `/list`, the retailer's for `/flipkart` and `/reliance`. */
  function Selected(ps: seq<Product>, f: Filter): (r: seq<Product>)
    ensures |r| <= |ps|
    ensures f == AllProducts ==> r == ps
  {
    if ps == [] then []
    else if Matches(ps[0], f) then [ps[0]] + Selected(ps[1..], f)
    else Selected(ps[1..], f)
  }

  /** Exactly the matching products are selected. */
  lemma {:induction false} SelectedMembers(ps: seq<Product>, f: Filter)
    ensures forall k :: 0 <= k < |Selected(ps, f)| ==> Matches(Selected(ps, f)[k], f) && Selected(ps, f)[k] in ps
    ensures forall k :: 0 <= k < |ps| && Matches(ps[k], f) ==> ps[k] in Selected(ps, f)
  {
    if ps != [] {
      SelectedMembers(ps[1..], f);
      var rest := Selected(ps[1..], f);
      forall k | 0 <= k < |rest|
        ensures rest[k] in ps
      {
        assert rest[k] in ps[1..];
      }
      forall k | 1 <= k < |ps| && Matches(ps[k], f)
        ensures ps[k] in Selected(ps, f)
      {
        assert ps[k] == ps[1..][k - 1];
      }
    }
  }

  /** Selection keeps list order: it distributes over concatenation. */
  lemma {:induction false} SelectedAppend(a: seq<Product>, b: seq<Product>, f: Filter)
    ensures Selected(a + b, f) == Selected(a, f) + Selected(b, f)
  {
    if a != [] {
      assert (a + b)[0] == a[0] && (a + b)[1..] == a[1..] + b;
      SelectedAppend(a[1..], b, f);
    } else {
      assert a + b == b;
    }
  }

  /** The first line of the reply. */
  function Header(f: Filter): string {
    match f
    case AllProducts => "*Your products*\n ------------------------------------- \n"
    case FromRetailer(r) => "*Your products added from " + WebsiteName(r) + ":*\n ------------------------------- \n"
  }

  /** Fetches the page at a URL and returns the text of the first element matching a selector, if any. */
  type Scraper = (string, string) -> Option<string>

  datatype Snapshot = Snapshot(name: string, price: string)

  /** The page a product is read from. */
  function FetchUrl(p: Product): string {
    p.baseUrl + p.productUrl
  }

  /** Name and price of a product, or `None` when either selector finds nothing. */
  function Extract(p: Product, scrape: Scraper): Option<Snapshot> {
    var url := FetchUrl(p);
    match scrape(url, NameSelector(p.website))
    case None => None
    case Some(name) =>
      match scrape(url, PriceSelector(p.website))
      case None => None
      case Some(price) => Some(Snapshot(name, price))
  }

  /**
   * Fetches a product's page and reads its name, then its price, with the
   * retailer's selectors: a result exactly when both are found, made of what
   * was found.
   */
  method ReadProduct(product: Product, scrape: Scraper) returns (snapshot: Option<Snapshot>)
    ensures var url := product.baseUrl + product.productUrl;
      var name, price := scrape(url, NameSelector(product.website)), scrape(url, PriceSelector(product.website));
      && (snapshot.Some? <==> name.Some? && price.Some?)
      && (snapshot.Some? ==> snapshot.value == Snapshot(name.value, price.value))
  {
    var url := FetchUrl(product);
    var name := scrape(url, NameSelector(product.website));
    if name.None? {
      return None;
    }
    var price := scrape(url, PriceSelector(product.website));
    if price.None? {
      return None;
    }
    return Some(Snapshot(name.value, price.value));
  }

  /**
   * A product stored from a canonical link is read from that very link: the
   * page fetched is the one that was submitted with `/add`.
   */
  lemma FetchesSubmittedLink(r: Retailer, p: string, id: int)
    requires r == Flipkart || !Contains(p, "flipkart")
    ensures var d := Classify(BaseUrl(r) + p);
      d.Classified? && FetchUrl(NewProduct(id, d.retailer, d.path)) == BaseUrl(r) + p
  {
    ClassifyRoundTrip(r, p);
  }

  /** The pieces of the numbered entry of one product, ending with its removal hint. */
  function EntryPieces(index: nat, p: Product, s: Snapshot): seq<string> {
    [Decimal(index), ") Website: ", WebsiteName(p.website),
     "\nProduct name: [", s.name, "](", FetchUrl(p), ")\nPrice: ", s.price,
     "\n\nTo Ignore the product, Type: ", IgnoreHint(p.productId), "\n\n"]
  }

  /** The numbered entry of one product. */
  function Entry(index: nat, p: Product, s: Snapshot): string {
    Concat(EntryPieces(index, p, s))
  }

  /**
   * Every entry ends with the removal hint of its product, and that hint, sent
   * back as a message, asks to remove that very product.
   */
  lemma EntryEndsWithHint(index: nat, p: Product, s: Snapshot)
    requires p.productId >= 0
    ensures var e, tail := Entry(index, p, s), IgnoreHint(p.productId) + "\n\n";
      |tail| <= |e| && e[|e| - |tail|..] == tail
    ensures Dispatch(IgnoreHint(p.productId)) == Ignore(p.productId)
  {
    var pieces := EntryPieces(index, p, s);
    var hint := IgnoreHint(p.productId);
    assert pieces == pieces[..10] + [hint, "\n\n"];
    ConcatAppend(pieces[..10], [hint, "\n\n"]);
    assert Concat([hint, "\n\n"]) == hint + "\n\n" by {
      assert [hint, "\n\n"][1..] == ["\n\n"] && ["\n\n"][1..] == [];
    }
    IgnoreHintRoundTrip(p.productId);
  }

  /**
   * The name and price of each of the first `n` products, in list order;
   * `None` as soon as one of them cannot be read, since that aborts the whole
   * reply.
   */
  function Snapshots(ps: seq<Product>, n: nat, scrape: Scraper): (r: Option<seq<Snapshot>>)
    requires n <= |ps|
    ensures r.Some? ==> |r.value| == n
  {
    if n == 0 then Some([])
    else
      match Snapshots(ps, n - 1, scrape)
      case None => None
      case Some(ss) =>
        match Extract(ps[n - 1], scrape)
        case None => None
        case Some(s) => Some(ss + [s])
  }

  /**
   * The first `n` products are all read exactly when each of them can be read,
   * and then the `k`-th snapshot is what the `k`-th product's page shows.
   */
  lemma {:induction false} SnapshotsIff(ps: seq<Product>, n: nat, scrape: Scraper)
    requires n <= |ps|
    ensures Snapshots(ps, n, scrape).Some? <==> forall k :: 0 <= k < n ==> Extract(ps[k], scrape).Some?
    ensures Snapshots(ps, n, scrape).Some? ==>
      forall k :: 0 <= k < n ==> Snapshots(ps, n, scrape).value[k] == Extract(ps[k], scrape).value
  {
    if n > 0 {
      SnapshotsIff(ps, n - 1, scrape);
    }
  }

  /** The numbered entries of the first `|ss|` products, read as `ss`, numbered from 1. */
  function Body(ps: seq<Product>, ss: seq<Snapshot>): string
    requires |ss| <= |ps|
    decreases |ss|
  {
    if ss == [] then ""
    else Body(ps, ss[..|ss| - 1]) + Entry(|ss|, ps[|ss| - 1], ss[|ss| - 1])
  }

  /** One more product read adds its entry after the earlier ones. */
  lemma BodyStep(ps: seq<Product>, ss: seq<Snapshot>, s: Snapshot)
    requires |ss| < |ps|
    ensures Body(ps, ss + [s]) == Body(ps, ss) + Entry(|ss| + 1, ps[|ss|], s)
  {
    var longer := ss + [s];
    assert longer[..|ss|] == ss && longer[|ss|] == s;
  }

  /** Entries only ever grow at the end: the entries of the first `m` products start the whole text. */
  lemma {:induction false} BodyExtends(ps: seq<Product>, ss: seq<Snapshot>, m: nat)
    requires m <= |ss| <= |ps|
    ensures |Body(ps, ss[..m])| <= |Body(ps, ss)|
    ensures Body(ps, ss)[..|Body(ps, ss[..m])|] == Body(ps, ss[..m])
    decreases |ss|
  {
    if m < |ss| {
      var init := ss[..|ss| - 1];
      BodyExtends(ps, init, m);
      assert init[..m] == ss[..m];
    } else {
      assert ss[..m] == ss;
    }
  }

  /**
   * The listing message for the products selected: the header followed by
   * their numbered entries, or `None` when one of them cannot be read; the
   * bare header when there is nothing to list.
   */
  function Listed(f: Filter, ps: seq<Product>, scrape: Scraper): (out: Option<string>)
    ensures out.None? <==> exists k :: 0 <= k < |ps| && Extract(ps[k], scrape).None?
    ensures out.Some? ==>
      Snapshots(ps, |ps|, scrape).Some? && out.value == Header(f) + Body(ps, Snapshots(ps, |ps|, scrape).value)
    ensures ps == [] ==> out == Some(Header(f))
  {
    var read := Snapshots(ps, |ps|, scrape);
    SnapshotsIff(ps, |ps|, scrape);
    if read.None? then
      assert !forall k :: 0 <= k < |ps| ==> Extract(ps[k], scrape).Some?;
      None
    else
      assert ps == [] ==> Header(f) + Body(ps, read.value) == Header(f);
      Some(Header(f) + Body(ps, read.value))
  }

  /**
   * The loop of `sendDetails` that appends one entry per product to the header;
   * `None` when reading a product fails, which in the bot is an uncaught
   * exception, so nothing is sent.
   */
  method ComposeListing(f: Filter, ps: seq<Product>, scrape: Scraper) returns (text: Option<string>)
    ensures text == Listed(f, ps, scrape)
  {
    var header := Header(f);
    var details := header;
    ghost var read: seq<Snapshot> := [];
    for idx := 0 to |ps|
      invariant Snapshots(ps, idx, scrape) == Some(read)
      invariant |read| == idx
      invariant details == header + Body(ps, read)
    {
      var product := ps[idx];
      var snapshot := ReadProduct(product, scrape);
      assert snapshot == Extract(product, scrape);
      if snapshot.None? {
        assert Extract(ps[idx], scrape).None?;
        return None;
      }
      var entry := Entry(idx + 1, product, snapshot.value);
      BodyStep(ps, read, snapshot.value);
      AppendAssoc(header, Body(ps, read), entry);
      details, read := details + entry, read + [snapshot.value];
    }
    return Some(details);
  }

  const EmptyListMessage: string := "Product list is empty"

  /**
   * What `sendDetails` sends: for a retailer with no matching product the
   * empty-list error; otherwise the header and entries in one message, or
   * nothing when a product cannot be read. `/list` always gets the header,
   * even with no products.
   */
  function ListingReplies(f: Filter, owned: seq<Product>, scrape: Scraper): (out: seq<string>)
    ensures |out| <= 1
    ensures f.FromRetailer? && Selected(owned, f) == [] ==> out == [EmptyListMessage]
    ensures f == AllProducts && owned == [] ==> out == [Header(f)]
    ensures f == AllProducts || Selected(owned, f) != [] ==>
      (out == [] <==> exists k :: 0 <= k < |Selected(owned, f)| && Extract(Selected(owned, f)[k], scrape).None?)
    ensures var ps := Selected(owned, f);
      !(f.FromRetailer? && ps == []) && out != [] ==>
        Snapshots(ps, |ps|, scrape).Some? && out == [Header(f) + Body(ps, Snapshots(ps, |ps|, scrape).value)]
  {
    if f.FromRetailer? && Selected(owned, f) == [] then [EmptyListMessage]
    else
      match Listed(f, Selected(owned, f), scrape)
      case None =>
        assert Listed(f, Selected(owned, f), scrape).None?;
        assert exists k :: 0 <= k < |Selected(owned, f)| && Extract(Selected(owned, f)[k], scrape).None?;
        []
      case Some(text) => [text]
  }
}

=== FILE: registry.dfy ===
/**
 * The two supported retailers and the static tables keyed by them: the
 * canonical base URL (`BASE_URL`), the selector of the element holding the
 * price (`PRICE`) and the selector of the element holding the product name
 * (`PRODUCT_NAME`). The selectors are kept as opaque strings.
 */
module Registry {

  import opened Text

  datatype Retailer = Reliance | Flipkart

  /** The `website` string stored with a product and shown in listings. */
  function WebsiteName(r: Retailer): (name: string)
    ensures (name == "flipkart") <==> r == Flipkart
    ensures (name == "reliance") <==> r == Reliance
  {
    match r
    case Reliance => "reliance"
    case Flipkart => "flipkart"
  }

  /** The host of a retailer's site; the retailer's name sits right after `www.`. */
  function Host(r: Retailer): (h: string)
    ensures |h| >= 12 && h[4..12] == WebsiteName(r) && '/' !in h
  {
    match r
    case Reliance => "www.reliancedigital.in"
    case Flipkart => "www.flipkart.com"
  }

  /** `BASE_URL[website]`: scheme, host and the separator that precedes the stored path. */
  function BaseUrl(r: Retailer): (u: string)
    ensures |u| == |Host(r)| + 9 && StartsWith(u, "https://") && u[|u| - 1] == '/'
  {
    "https://" + Host(r) + "/"
  }

  /** The retailer's name follows the scheme and `www.` of its base URL. */
  lemma BaseUrlNamesRetailer(r: Retailer)
    ensures |BaseUrl(r)| >= 20 && BaseUrl(r)[12..20] == WebsiteName(r)
  {
    var h := Host(r);
    assert BaseUrl(r)[12..20] == h[4..12];
  }

  const RelianceBase: string := "https://www.reliancedigital.in/"
  const FlipkartBase: string := "https://www.flipkart.com/"

  /** The `BASE_URL` entry of Reliance Digital, letter for letter. */
  lemma RelianceBaseUrl()
    ensures BaseUrl(Reliance) == RelianceBase
  {
  }

  /** The `BASE_URL` entry of Flipkart, letter for letter. */
  lemma FlipkartBaseUrl()
    ensures BaseUrl(Flipkart) == FlipkartBase
  {
  }

  /** A base URL has no space, so a space-free path appended to it gives a space-free link. */
  lemma BaseUrlHasNoSpace(r: Retailer, p: string)
    requires ' ' !in p
    ensures ' ' !in BaseUrl(r) + p
  {
    assert ' ' !in "https://" && ' ' !in Host(r);
  }

  /** The base URLs tell the retailers apart. */
  lemma BaseUrlInjective(r: Retailer, s: Retailer)
    ensures BaseUrl(r) == BaseUrl(s) <==> r == s
  {
    if r != s {
      BaseUrlNamesRetailer(r);
      BaseUrlNamesRetailer(s);
      assert BaseUrl(r)[12] != BaseUrl(s)[12];
    }
  }

  /** `PRICE[website]`. */
  function PriceSelector(r: Retailer): string {
    match r
    case Reliance => "span[class=\"pdp__offerPrice\"] span:nth-child(2)"
    case Flipkart => "div[class = \"_30jeq3 _16Jk6d\"]"
  }

  /** `PRODUCT_NAME[website]`. */
  function NameSelector(r: Retailer): string {
    match r
    case Reliance => "h1[class=\"pdp__title mb__20\"]"
    case Flipkart => "span[class=\"B_NuCI\"]"
  }
}

=== FILE: text.dfy ===
/**
 * The handful of Python string and `re` operations the bot relies on:
 * anchored matching (`re.search('^…')`, `re.findall('^…')`), substring search
 * (`re.findall('flipkart', s)`), `str.split(sep)`, `re.split(sep, s, maxsplit)`,
 * `int(…)` on a decimal string and `str(…)` of an integer.
 */
module Text {

  import opened Wrappers

  /** `s` begins with `t` (what an anchored pattern `^t` tests). */
  predicate StartsWith(s: string, t: string) {
    |t| <= |s| && s[..|t|] == t
  }

  /** Regrouping a concatenation, stated once so that long texts need not be unfolded. */
  lemma AppendAssoc(a: string, b: string, c: string)
    ensures (a + b) + c == a + (b + c)
  {
  }

  /** `t` occurs somewhere in `s` (a non-empty `re.findall(t, s)` for a literal `t`). */
  predicate Contains(s: string, t: string)
    decreases |s|
  {
    StartsWith(s, t) || (|s| > 0 && Contains(s[1..], t))
  }

  lemma {:induction false} ContainsAt(s: string, t: string, i: nat)
    requires i <= |s| && StartsWith(s[i..], t)
    ensures Contains(s, t)
  {
    if i > 0 {
      assert s[1..][i - 1..] == s[i..];
      ContainsAt(s[1..], t, i - 1);
    }
  }

  /** A prefix that does not hold the first character of `t` cannot hide an occurrence of `t`. */
  lemma {:induction false} ContainsAfterPrefix(a: string, p: string, t: string)
    requires |t| > 0 && t[0] !in a
    ensures Contains(a + p, t) <==> Contains(p, t)
    decreases |a|
  {
    if a != [] {
      assert (a + p)[0] == a[0] != t[0];
      assert (a + p)[1..] == a[1..] + p;
      ContainsAfterPrefix(a[1..], p, t);
    } else {
      assert a + p == p;
    }
  }

  /** Position of the first `c` in `s`, or `None` when `c` does not occur. */
  function Find(s: string, c: char): (r: Option<nat>)
    ensures r.None? ==> forall k :: 0 <= k < |s| ==> s[k] != c
    ensures r.Some? ==> r.value < |s| && s[r.value] == c && forall k :: 0 <= k < r.value ==> s[k] != c
  {
    if s == [] then None
    else if s[0] == c then Some(0)
    else
      match Find(s[1..], c)
      case None => None
      case Some(j) =>
        assert forall k :: 1 <= k <= j ==> s[k] == s[1..][k - 1];
        Some(j + 1)
  }

  /** The first `c` after a head without `c` is right after that head. */
  lemma FindAfterClean(a: string, c: char, b: string)
    requires c !in a
    ensures Find(a + [c] + b, c) == Some(|a|)
  {
    var s := a + [c] + b;
    assert s[|a|] == c;
    assert forall k :: 0 <= k < |a| ==> s[k] == a[k];
  }

  /**
   * The pieces of `s` cut at the first `limit` occurrences of `c`: Python's
   * `s.split(c, limit)`, equivalently `re.split(c, s, limit)` for a literal `c`.
   * The last piece is the untouched remainder of `s`.
   */
  function SplitAtMost(s: string, c: char, limit: nat): (parts: seq<string>)
    ensures 1 <= |parts| <= limit + 1
    decreases limit
  {
    if limit == 0 then [s]
    else
      match Find(s, c)
      case None => [s]
      case Some(i) => [s[..i]] + SplitAtMost(s[i + 1..], c, limit - 1)
  }

  /** Python's `s.split(c)`: every occurrence of `c` cuts (there are at most `|s|`). */
  function Split(s: string, c: char): seq<string> {
    SplitAtMost(s, c, |s|)
  }

  /** `c.join(parts)`. */
  function Join(parts: seq<string>, c: char): string {
    if parts == [] then ""
    else if |parts| == 1 then parts[0]
    else parts[0] + [c] + Join(parts[1..], c)
  }

  /** Pieces of text written one after the other. */
  function Concat(pieces: seq<string>): string {
    if pieces == [] then "" else pieces[0] + Concat(pieces[1..])
  }

  /** Writing two runs of pieces is writing the first run, then the second. */
  lemma {:induction false} ConcatAppend(a: seq<string>, b: seq<string>)
    ensures Concat(a + b) == Concat(a) + Concat(b)
  {
    if a == [] {
      assert a + b == b;
    } else {
      assert (a + b)[0] == a[0] && (a + b)[1..] == a[1..] + b;
      ConcatAppend(a[1..], b);
    }
  }

  /** A text is what precedes position `i`, the character there, and what follows. */
  lemma Around(s: string, i: nat)
    requires i < |s|
    ensures s == s[..i] + [s[i]] + s[i + 1..]
  {
  }

  /** Joining a head in front of further pieces puts one separator between them. */
  lemma JoinCons(head: string, rest: seq<string>, c: char)
    requires rest != []
    ensures Join([head] + rest, c) == head + [c] + Join(rest, c)
  {
    assert ([head] + rest)[1..] == rest;
  }

  /** Cutting and re-joining gives back the original text. */
  lemma {:induction false} JoinSplitAtMost(s: string, c: char, limit: nat)
    ensures Join(SplitAtMost(s, c, limit), c) == s
    decreases limit
  {
    if limit > 0 && Find(s, c).Some? {
      var i := Find(s, c).value;
      var rest := SplitAtMost(s[i + 1..], c, limit - 1);
      assert SplitAtMost(s, c, limit) == [s[..i]] + rest;
      JoinSplitAtMost(s[i + 1..], c, limit - 1);
      JoinCons(s[..i], rest, c);
      Around(s, i);
    }
  }

  /** With enough cuts allowed, no piece still holds the separator. */
  lemma {:induction false} SplitPiecesClean(s: string, c: char, limit: nat)
    requires |s| <= limit
    ensures forall k :: 0 <= k < |SplitAtMost(s, c, limit)| ==> c !in SplitAtMost(s, c, limit)[k]
    decreases limit
  {
    if limit > 0 && Find(s, c).Some? {
      var i := Find(s, c).value;
      var rest := SplitAtMost(s[i + 1..], c, limit - 1);
      SplitPiecesClean(s[i + 1..], c, limit - 1);
      var parts := [s[..i]] + rest;
      assert SplitAtMost(s, c, limit) == parts;
      forall k | 0 <= k < |parts|
        ensures c !in parts[k]
      {
        if k > 0 {
          assert parts[k] == rest[k - 1];
        }
      }
    }
  }

  /** A text with no separator is a single piece. */
  lemma SplitAtMostNoSeparator(s: string, c: char, limit: nat)
    requires c !in s
    ensures SplitAtMost(s, c, limit) == [s]
  {
  }

  /** One cut at the first separator peels off the clean head. */
  lemma SplitAtMostCons(a: string, c: char, b: string, limit: nat)
    requires c !in a
    ensures SplitAtMost(a + [c] + b, c, limit + 1) == [a] + SplitAtMost(b, c, limit)
  {
    var s := a + [c] + b;
    FindAfterClean(a, c, b);
    assert s[..|a|] == a;
    assert s[|a| + 1..] == b;
  }

  /** Allowing more cuts than there are characters changes nothing. */
  lemma {:induction false} SplitAtMostSaturates(s: string, c: char, limit: nat)
    requires |s| <= limit
    ensures SplitAtMost(s, c, limit) == Split(s, c)
    decreases limit
  {
    if Find(s, c).Some? {
      var i := Find(s, c).value;
      SplitAtMostSaturates(s[i + 1..], c, limit - 1);
      SplitAtMostSaturates(s[i + 1..], c, |s| - 1);
    }
  }

  /** `Split(a + [c] + b, c)` for a clean head `a`. */
  lemma SplitCons(a: string, c: char, b: string)
    requires c !in a
    ensures Split(a + [c] + b, c) == [a] + Split(b, c)
  {
    var s := a + [c] + b;
    SplitAtMostCons(a, c, b, |s| - 1);
    SplitAtMostSaturates(b, c, |s| - 1);
  }

  predicate IsDigit(ch: char) {
    '0' <= ch <= '9'
  }

  predicate AllDigits(s: string) {
    forall k :: 0 <= k < |s| ==> IsDigit(s[k])
  }

  /** The value of a string of decimal digits, most significant first. */
  function DigitsValue(s: string): nat
    requires AllDigits(s)
  {
    if s == [] then 0
    else 10 * DigitsValue(s[..|s| - 1]) + (s[|s| - 1] as int - '0' as int)
  }

  /** `int(s)` restricted to plain decimal digits; anything else is a parse failure. */
  function ParseNat(s: string): (r: Option<nat>)
    ensures r.Some? <==> s != [] && AllDigits(s)
  {
    if s != [] && AllDigits(s) then Some(DigitsValue(s)) else None
  }

  function DigitChar(d: nat): (ch: char)
    requires d < 10
    ensures IsDigit(ch) && ch as int - '0' as int == d
  {
    ('0' as int + d) as char
  }

  /** `str(n)` for a natural number: its decimal digits without leading zeros. */
  function Decimal(n: nat): (s: string)
    ensures s != [] && AllDigits(s)
    ensures |s| > 1 ==> s[0] != '0'
  {
    if n < 10 then [DigitChar(n)] else Decimal(n / 10) + [DigitChar(n % 10)]
  }

  /** `str(i)` for any integer. */
  function IntText(i: int): (s: string)
    ensures i >= 0 ==> s == Decimal(i)
    ensures i < 0 ==> |s| > 0 && s[0] == '-'
  {
    if i < 0 then "-" + Decimal(-i) else Decimal(i)
  }

  /** Reading back the decimal text of a number gives the number. */
  lemma {:induction false} ParseDecimal(n: nat)
    ensures ParseNat(Decimal(n)) == Some(n)
  {
    var s := Decimal(n);
    if n >= 10 {
      ParseDecimal(n / 10);
      assert s[..|s| - 1] == Decimal(n / 10);
      assert DigitsValue(s) == 10 * (n / 10) + n % 10;
    } else {
      assert s[..|s| - 1] == [];
    }
  }
}

=== FILE: watchlist.dfy ===
/**
 * The per-user watchlist: one document per user, keyed by the chat id, holding
 * the user's first name and the ordered list of monitored products. Product
 * ids are drawn at random from [1001, 9999] and redrawn while they clash with
 * an id the user already has; removal pulls every entry with a given id.
 */
module Watchlist {

  import opened Wrappers
  import opened Registry

  const MinProductId: int := 1001
  const MaxProductId: int := 9999

  /** The range of `random.randint(1001, 9999)`. */
  predicate InIdRange(id: int) {
    MinProductId <= id <= MaxProductId
  }

  /** A product sub-document: `{product_id, website, base_url, product_url}`. */
  datatype Product = Product(productId: int, website: Retailer, baseUrl: string, productUrl: string)

  /** A user document: `{_id, name, products}`, the `_id` being the key of the store's map. */
  datatype UserDoc = UserDoc(name: string, products: seq<Product>)

  /** The `prodIds` list gathered before drawing a new id. */
  function Ids(ps: seq<Product>): (ids: seq<int>)
    ensures |ids| == |ps| && forall k :: 0 <= k < |ps| ==> ids[k] == ps[k].productId
  {
    seq(|ps|, k requires 0 <= k < |ps| => ps[k].productId)
  }

  predicate DistinctIds(ps: seq<Product>) {
    forall i, j :: 0 <= i < j < |ps| ==> ps[i].productId != ps[j].productId
  }

  /** What every stored list satisfies: distinct ids, ids in range, base URL matching the website. */
  predicate WellFormed(ps: seq<Product>) {
    && DistinctIds(ps)
    && forall k :: 0 <= k < |ps| ==> InIdRange(ps[k].productId) && ps[k].baseUrl == BaseUrl(ps[k].website)
  }

  predicate WellFormedStore(users: map<int, UserDoc>) {
    forall u :: u in users ==> WellFormed(users[u].products)
  }

  /**
   * The entry `addDetails` builds: the base URL is the Flipkart one exactly when
   * the website is `flipkart`, the Reliance one otherwise.
   */
  function NewProduct(id: int, website: Retailer, productUrl: string): (p: Product)
    ensures p.productId == id && p.website == website && p.productUrl == productUrl
    ensures (p.baseUrl == BaseUrl(Flipkart)) <==> website == Flipkart
    ensures p.baseUrl == BaseUrl(website)
  {
    BaseUrlInjective(website, Flipkart);
    var baseUrl := if website == Flipkart then BaseUrl(Flipkart) else BaseUrl(Reliance);
    Product(id, website, baseUrl, productUrl)
  }

  /**
   * The position of the draw that ends the redraw loop: every earlier draw is
   * already taken and this one is not; `|draws|` when every draw is taken.
   */
  function FreshDraw(draws: seq<int>, taken: seq<int>): (i: nat)
    ensures i <= |draws|
    ensures forall j :: 0 <= j < i ==> draws[j] in taken
    ensures i < |draws| ==> draws[i] !in taken
  {
    if draws == [] || draws[0] !in taken then 0 else 1 + FreshDraw(draws[1..], taken)
  }

  /**
   * `generateProductId` and the `while prodId in prodIds` redraw loop, run on a
   * supplied sequence of `random.randint(1001, 9999)` results. `None` means the
   * sequence ran out before a free id came up.
   */
  method GenerateProductId(draws: seq<int>, taken: seq<int>) returns (r: Option<int>)
    requires |draws| > 0
    ensures r.Some? <==> exists k :: 0 <= k < |draws| && draws[k] !in taken
    ensures r.Some? ==> r.value !in taken && r.value == draws[FreshDraw(draws, taken)]
  {
    var i := 0;
    var prodId := draws[0];
    while prodId in taken
      invariant 0 <= i < |draws| && prodId == draws[i]
      invariant forall j :: 0 <= j < i ==> draws[j] in taken
      decreases |draws| - i
    {
      if i + 1 == |draws| {
        return None;
      }
      i := i + 1;
      prodId := draws[i];
    }
    return Some(prodId);
  }

  /** The id `addDetails` assigns: the first draw for a new user, the first free draw otherwise. */
  function AssignedId(users: map<int, UserDoc>, userId: int, draws: seq<int>): (r: Option<int>)
    requires |draws| > 0
    ensures userId !in users ==> r == Some(draws[0])
    ensures userId in users ==>
      (r.Some? <==> exists k :: 0 <= k < |draws| && draws[k] !in Ids(users[userId].products))
    ensures r.Some? ==> r.value in draws && (userId in users ==> r.value !in Ids(users[userId].products))
  {
    if userId !in users then Some(draws[0])
    else
      var i := FreshDraw(draws, Ids(users[userId].products));
      if i < |draws| then Some(draws[i]) else None
  }

  /** A user's products in list order; none for a user without a document. */
  function Owned(users: map<int, UserDoc>, userId: int): seq<Product> {
    if userId in users then users[userId].products else []
  }

  /** The store after `addDetails` has stored a product with the given id. */
  function Added(users: map<int, UserDoc>, userId: int, userName: string,
                 website: Retailer, productUrl: string, id: int): (after: map<int, UserDoc>)
    ensures after.Keys == users.Keys + {userId}
    ensures forall u :: u in users && u != userId ==> after[u] == users[u]
    ensures after[userId].name == (if userId in users then users[userId].name else userName)
    ensures after[userId].products == Owned(users, userId) + [NewProduct(id, website, productUrl)]
  {
    var p := NewProduct(id, website, productUrl);
    if userId in users then users[userId := users[userId].(products := users[userId].products + [p])]
    else users[userId := UserDoc(userName, [p])]
  }

  /** `$pull` of every entry with the given id, the others kept in order. */
  function Without(ps: seq<Product>, id: int): (r: seq<Product>)
    ensures |r| <= |ps|
    ensures (|r| == |ps|) <==> id !in Ids(ps)
    ensures id !in Ids(ps) ==> r == ps
  {
    if ps == [] then []
    else if ps[0].productId == id then Without(ps[1..], id)
    else [ps[0]] + Without(ps[1..], id)
  }

  /** The store after `deleteDetails`; an unknown user is not created. */
  function Removed(users: map<int, UserDoc>, userId: int, productId: int): (after: map<int, UserDoc>)
    ensures after.Keys == users.Keys
    ensures forall u :: u in users && u != userId ==> after[u] == users[u]
    ensures userId in users ==>
      after[userId].name == users[userId].name && after[userId].products == Without(users[userId].products, productId)
  {
    if userId in users then users[userId := users[userId].(products := Without(users[userId].products, productId))]
    else users
  }

  /** Removal keeps every entry with another id, and only entries of the list. */
  lemma {:induction false} WithoutMembers(ps: seq<Product>, id: int)
    ensures forall k :: 0 <= k < |Without(ps, id)| ==> Without(ps, id)[k].productId != id && Without(ps, id)[k] in ps
    ensures forall k :: 0 <= k < |ps| && ps[k].productId != id ==> ps[k] in Without(ps, id)
  {
    if ps != [] {
      WithoutMembers(ps[1..], id);
      var rest := Without(ps[1..], id);
      forall k | 0 <= k < |rest|
        ensures rest[k] in ps
      {
        assert rest[k] in ps[1..];
      }
      forall k | 1 <= k < |ps| && ps[k].productId != id
        ensures ps[k] in Without(ps, id)
      {
        assert ps[k] == ps[1..][k - 1];
      }
    }
  }

  /** Removal keeps the relative order of the entries it keeps. */
  lemma {:induction false} WithoutAppend(a: seq<Product>, b: seq<Product>, id: int)
    ensures Without(a + b, id) == Without(a, id) + Without(b, id)
  {
    if a != [] {
      assert (a + b)[0] == a[0] && (a + b)[1..] == a[1..] + b;
      WithoutAppend(a[1..], b, id);
    } else {
      assert a + b == b;
    }
  }

  /** With distinct ids, a present id removes exactly one entry. */
  lemma {:induction false} WithoutRemovesOne(ps: seq<Product>, id: int)
    requires DistinctIds(ps) && id in Ids(ps)
    ensures |Without(ps, id)| == |ps| - 1
  {
    if ps[0].productId == id {
      assert forall k :: 0 <= k < |ps| - 1 ==> ps[1..][k].productId == ps[k + 1].productId != id;
      assert id !in Ids(ps[1..]);
    } else {
      var k :| 0 <= k < |ps| && Ids(ps)[k] == id;
      assert Ids(ps[1..])[k - 1] == id;
      WithoutRemovesOne(ps[1..], id);
    }
  }

  /** The entries after the first of a well-formed list form a well-formed list. */
  lemma TailWellFormed(ps: seq<Product>)
    requires ps != [] && WellFormed(ps)
    ensures WellFormed(ps[1..])
  {
    var tail := ps[1..];
    forall i, j | 0 <= i < j < |tail|
      ensures tail[i].productId != tail[j].productId
    {
      assert tail[i] == ps[i + 1] && tail[j] == ps[j + 1];
    }
  }

  /** Putting an entry with an in-range id not used in a well-formed list in front of it keeps it well formed. */
  lemma ConsWellFormed(p: Product, rest: seq<Product>)
    requires WellFormed(rest) && InIdRange(p.productId) && p.baseUrl == BaseUrl(p.website)
    requires forall k :: 0 <= k < |rest| ==> rest[k].productId != p.productId
    ensures WellFormed([p] + rest)
  {
    var qs := [p] + rest;
    forall i, j | 0 <= i < j < |qs|
      ensures qs[i].productId != qs[j].productId
    {
      assert qs[j] == rest[j - 1];
      if i > 0 { assert qs[i] == rest[i - 1]; }
    }
    forall k | 0 <= k < |qs|
      ensures InIdRange(qs[k].productId) && qs[k].baseUrl == BaseUrl(qs[k].website)
    {
      if k > 0 { assert qs[k] == rest[k - 1]; }
    }
  }

  /** Removal keeps a list well formed. */
  lemma {:induction false} WithoutWellFormed(ps: seq<Product>, id: int)
    requires WellFormed(ps)
    ensures WellFormed(Without(ps, id))
  {
    if ps != [] {
      TailWellFormed(ps);
      WithoutWellFormed(ps[1..], id);
      var rest := Without(ps[1..], id);
      WithoutMembers(ps[1..], id);
      if ps[0].productId != id {
        forall k | 0 <= k < |rest|
          ensures rest[k].productId != ps[0].productId
        {
          var j :| 0 <= j < |ps[1..]| && ps[1..][j] == rest[k];
          assert ps[j + 1] == rest[k];
        }
        ConsWellFormed(ps[0], rest);
      }
    }
  }

  /** Appending an entry with a fresh in-range id keeps a list well formed. */
  lemma AppendFreshWellFormed(ps: seq<Product>, p: Product)
    requires WellFormed(ps) && InIdRange(p.productId) && p.productId !in Ids(ps)
    requires p.baseUrl == BaseUrl(p.website)
    ensures WellFormed(ps + [p])
  {
    var qs := ps + [p];
    forall i, j | 0 <= i < j < |qs|
      ensures qs[i].productId != qs[j].productId
    {
      if j == |ps| { assert Ids(ps)[i] == qs[i].productId; }
    }
  }

  /** Removing the id just added gives back the list as it was before the add. */
  lemma RemoveUndoesAdd(ps: seq<Product>, p: Product)
    requires p.productId !in Ids(ps)
    ensures Without(ps + [p], p.productId) == ps
  {
    WithoutAppend(ps, [p], p.productId);
    assert Without([p], p.productId) == [];
  }

  /**
   * For a user who already has a document, removing an id just added under a
   * fresh id gives back the store as it was before the add.
   */
  lemma RemovedUndoesAdded(users: map<int, UserDoc>, userId: int, userName: string,
                           website: Retailer, productUrl: string, id: int)
    requires userId in users && id !in Ids(users[userId].products)
    ensures Removed(Added(users, userId, userName, website, productUrl, id), userId, id) == users
  {
    var doc := users[userId];
    var p := NewProduct(id, website, productUrl);
    RemoveUndoesAdd(doc.products, p);
    assert doc.(products := doc.products) == doc;
  }

  /**
   * Adding keeps the store well formed whenever the draws are results of
   * `random.randint(1001, 9999)`: the new id is in range and, for an existing
   * user, not among that user's ids.
   */
  lemma AddedWellFormed(users: map<int, UserDoc>, userId: int, userName: string,
                        website: Retailer, productUrl: string, draws: seq<int>)
    requires WellFormedStore(users)
    requires |draws| > 0 && forall k :: 0 <= k < |draws| ==> InIdRange(draws[k])
    requires AssignedId(users, userId, draws).Some?
    ensures var id := AssignedId(users, userId, draws).value;
      && InIdRange(id)
      && (userId in users ==> id !in Ids(users[userId].products))
      && WellFormedStore(Added(users, userId, userName, website, productUrl, id))
  {
    var id := AssignedId(users, userId, draws).value;
    var p := NewProduct(id, website, productUrl);
    if userId in users {
      AppendFreshWellFormed(users[userId].products, p);
    }
  }

  /** Removal keeps the store well formed. */
  lemma RemovedWellFormed(users: map<int, UserDoc>, userId: int, productId: int)
    requires WellFormedStore(users)
    ensures WellFormedStore(Removed(users, userId, productId))
  {
    if userId in users {
      WithoutWellFormed(users[userId].products, productId);
    }
  }

  /** The in-memory stand-in for the `userData` collection. */
  class Store {
    var users: map<int, UserDoc>

    ghost predicate Valid()
      reads this
    {
      WellFormedStore(users)
    }

    constructor ()
      ensures Valid() && users == map[]
    {
      users := map[];
    }

    /**
     * `addDetails`: a new user gets a document with the given name and a
     * one-entry list whose id is the first draw; an existing user keeps its name
     * and gets the entry appended with the first draw not among its ids.
     * Every other user is untouched.
     */
    method AddDetails(userId: int, userName: string, website: Retailer, productUrl: string, draws: seq<int>)
      returns (id: Option<int>)
      requires Valid()
      requires |draws| > 0 && forall k :: 0 <= k < |draws| ==> InIdRange(draws[k])
      modifies this
      ensures Valid()
      ensures id == AssignedId(old(users), userId, draws)
      ensures id.Some? ==> InIdRange(id.value)
      ensures id.Some? && userId in old(users) ==> id.value !in Ids(old(users)[userId].products)
      ensures id.Some? ==> users == Added(old(users), userId, userName, website, productUrl, id.value)
      ensures id.None? ==> users == old(users)
    {
      var baseUrl := if website == Flipkart then BaseUrl(Flipkart) else BaseUrl(Reliance);
      if userId in users {
        var prodIds := Ids(users[userId].products);
        id := GenerateProductId(draws, prodIds);
        if id.Some? {
          var doc := users[userId];
          users := users[userId := doc.(products := doc.products + [Product(id.value, website, baseUrl, productUrl)])];
        }
      } else {
        id := Some(draws[0]);
        users := users[userId := UserDoc(userName, [Product(id.value, website, baseUrl, productUrl)])];
      }
      if id.Some? {
        AddedWellFormed(old(users), userId, userName, website, productUrl, draws);
      }
    }

    /**
     * `deleteDetails`: pulls every entry with the id from the user's list and
     * reports whether the document changed; an unknown user stays unknown.
     */
    method DeleteDetails(userId: int, productId: int) returns (removed: bool)
      requires Valid()
      modifies this
      ensures Valid()
      ensures removed <==> userId in old(users) && productId in Ids(old(users)[userId].products)
      ensures users == Removed(old(users), userId, productId)
      ensures !removed ==> users == old(users)
    {
      RemovedWellFormed(users, userId, productId);
      removed := false;
      if userId in users {
        var doc := users[userId];
        var kept := Without(doc.products, productId);
        users := users[userId := doc.(products := kept)];
        removed := |kept| < |doc.products|;
      }
    }
  }
}

=== FILE: wrappers.dfy ===
/** The optional-value type used across the model. */
module Wrappers {

  datatype Option<+T> = None | Some(value: T)
}
